=== FILE: README.md ===
# Reply-deletion driver: a Dafny model

This project models the control logic of `tweety_replies.py`, a browser-automation script
that logs in to X (formerly Twitter), opens the signed-in user's "with replies" stream and
deletes replies one at a time. The script has three layers:

- **Fallback selector search.** It finds the "more options" trigger of a post and the
  "Delete" entry of the menu by trying a fixed, ordered list of XPath queries.
- **Deletion pass.** It walks the scanned articles in order and classifies how each one
  ends. The pass stops at the first completed "Delete" click or the first stale element.
- **Session loop.** It counts deletions and consecutive failed passes. It stops at a
  quota of 15, after 7 failed passes in a row, at the end of the content, or after
  70 iterations.

Before the loop, a configuration check, a login and a navigation stage gate the run.

Every browser call is an input. The model never drives a browser:

- A probe of one selector yields a `Probe` (`Missing`, `Unusable`, `Usable`, `Raises`).
- A check or action on an element yields a `Check` or an `Act`. Either can raise one of
  the four exception classes the per-article handler distinguishes (`Fault`).
- A login or navigation step yields a `Step` (`Ok`, `TimedOut`, `Failed`).
- One loop iteration is a `Round`: the scan the pass sees, plus the page heights and the
  scroll offset read after a failed pass.

Modules, one per component of the script:

| file | module | component |
|---|---|---|
| browser.dfy | `Browser` | outcome vocabulary of the browser calls |
| resolution.dfy | `Resolution` | ordered fallback selector search |
| deletion_pass.dfy | `DeletionPass` | `attempt_single_reply_delete` |
| session_loop.dfy | `SessionLoop` | the counter loop of the `__main__` block |
| stages.dfy | `Stages` | configuration check, `login_to_twitter`, `navigate_to_profile_with_replies` |
| script.dfy | `Script` | the gating of the loop on the three stages |

The selector, pass and session code is imperative in the source. The two searches and
the pass and session loops are methods with loops (`Resolve`, `AttemptPass`,
`RunSession`), and `ProcessArticle` runs the steps of one article, calling `Resolve` for
each search. Each method is proved against a specification function: `Resolve` equals
`FirstUsable`, `ProcessArticle` equals `Classify`, `AttemptPass` reports a deletion exactly
when `PassDeletes` holds (the pass has a winner by `PassWinner`), and `RunSession` equals
`Session`. The lemmas are stated about those functions. The login and navigation outcome
mappings, the name cleaning and the URL are functions.

Facts about the code that shape the model:

- **Page loads can escape their stage.** `driver.get` at lines 40 and 93 sits outside
  each stage's `try`. A failure there reaches the top-level handler and ends the run. The
  model reports it as `LoginCrashed` or `NavCrashed`, and the run as `Crashed`.
- **Staleness can count as success before any click.** A stale element raised by the
  visibility check (line 150), the scroll into view (line 155) or either click (lines 192
  and 229) reaches the handler at lines 235-237, which returns true. That holds even when
  no click has been made (`StaleCountsBeforeAnyClick`). A stale element raised inside a
  selector probe is swallowed by the bare `except` (lines 185 and 217) and only moves that
  search on; one raised while sending Escape (lines 222-225, 241-244, 249-252, 257-260)
  is swallowed too.
- **Both verification timeouts are soft.** The inner handler for the verification
  prompt swallows a timeout on the prompt's "Next" button as well as a missing prompt
  (lines 51-63).

## Model

| member | source | states |
|---|---|---|
| Resolution.FirstUsable | tweety_replies.py:174-189 | the result is the position of the first candidate, in list order, whose probe is usable; "none" exactly when no candidate in the whole list is usable |
| Resolution.Resolve | tweety_replies.py:207-219 | the search loop (used for both the "more options" and the "Delete" lists) returns the first usable candidate; every other probe result, including a raised error, only moves on to the next candidate |
| DeletionPass.Classify | tweety_replies.py:140-261 | an article ends in a completed "Delete" click exactly when every step completes and both searches find a candidate; "not displayed" exactly when the visibility check says so; the first exception raised picks the handler (stale, intercepted, timeout, other); "trigger not found" exactly when the article is visible, centred and the whole trigger list is exhausted, and "delete entry not found" exactly when the menu opened and the whole "Delete" list is exhausted (both move on); the article ends the pass exactly when every step completes or its first exception is a stale element |
| DeletionPass.FaultOutcome | tweety_replies.py:235-261 | the handler chain maps an exception raised inside an article to its outcome; only a stale element ends the pass, and no exception gives a completed click, invisibility or a missing affordance |
| DeletionPass.FirstEnding | tweety_replies.py:137-265 | over the articles' outcomes (`Outcomes`, one per article in scan order), the article that ends a pass is the first one, from the given position on, whose outcome is a completed click or staleness; "none" exactly when no article from there on has such an outcome |
| DeletionPass.ProcessArticle | tweety_replies.py:140-232 | processing one article, step by step, gives the outcome `Classify` defines |
| DeletionPass.AttemptPass | tweety_replies.py:119-271 | the pass reports a deletion exactly when the scan found articles and one of them ends the pass (no articles, a failed scan or an exhausted list give false); at most one "Delete" click completes, and one does exactly when the pass ends on it |
| DeletionPass.StaleCountsBeforeAnyClick | tweety_replies.py:235-237 | staleness on the first visibility check already ends the pass as a deletion, with no click made |
| DeletionPass.SkippedArticlesAreTransparent | tweety_replies.py:238-261 | articles that end in intercepted clicks, timeouts, other errors, missing affordances or invisibility do not change whether the pass deletes |
| SessionLoop.Loop | tweety_replies.py:287-320 | the loop from iteration i stops within the 70-iteration ceiling, and every iteration it starts runs a pass |
| SessionLoop.RunSession | tweety_replies.py:279-320 | the loop with mutable counters computes `Session` of what the browser answers, runs at most 70 passes and deletes at most 15 |
| SessionLoop.LoopInvariants | tweety_replies.py:286-320 | from every reached iteration: counters agree with the reference counts; a quota stop happens exactly when the total is 15; a stagnation stop exactly when the failure counter is 7; the ceiling stop only after 70 passes; no earlier prefix of the run had 7 failures in a row; an end-of-content stop comes right after a failed pass with fewer than 7 failures in a row that meets the end-of-content test |
| SessionLoop.EndOfContentIsTaken | tweety_replies.py:309-320 | from every reached iteration, a failed pass it runs with fewer than 7 failures in a row that meets the end-of-content test is the last pass, and the loop stops there for end of content |
| SessionLoop.SessionIsBounded | tweety_replies.py:287-291 | at most 70 deletion passes and at most 15 deletions, whatever the browser answers |
| SessionLoop.SessionTally | tweety_replies.py:293-304 | the deletion counter is the number of passes that deleted, and the failure counter the number of failed passes since the last deleting one |
| SessionLoop.QuotaEndsSession | tweety_replies.py:294-299 | the session stops for the quota exactly when the total reaches 15, in the iteration whose pass reached it |
| SessionLoop.ScrollsFollowFailedPasses | tweety_replies.py:302-310 | every failed pass scrolls exactly once, except the one that ends the session for stagnation, which stops before scrolling |
| SessionLoop.EndOfContentEndsSession | tweety_replies.py:315-320 | a failed pass with fewer than 7 failures in a row, an unchanged page height and an offset within 15 of the bottom ends the session right there, for end of content; with `EndOfContentNeedsBottom` this makes the exit an if-and-only-if |
| SessionLoop.EndOfContentNeedsBottom | tweety_replies.py:315-320 | one direction of an if-and-only-if whose converse is `EndOfContentEndsSession`: the session stops for end of content at its last pass exactly when that pass is a failed pass, with fewer than 7 failures in a row, meeting the end-of-content test, and no earlier pass met it. This lemma proves that the end-of-content exit happens only after a failed pass with more than 2 and fewer than 7 failures in a row, an unchanged page height across the scroll, and an offset within 15 of the largest scroll offset (`AtEndOfContent` and `NearBottom` state the test at lines 315-318) |
| SessionLoop.FailureRunCoversRun | tweety_replies.py:304 | a run of m failed passes leaves the failure counter at least m |
| SessionLoop.SevenFailuresEndSession | tweety_replies.py:304-307 | 7 failed passes in a row end the session for stagnation right after the seventh, before the iteration ceiling |
| SessionLoop.LoopReadsOnlyItsRounds | tweety_replies.py:287-320 | the loop's result depends only on the answers of the iterations it runs |
| SessionLoop.LaterRoundsAreNeverRun | tweety_replies.py:297-307 | what the browser would answer after the session's last pass has no effect, so no pass runs after a quota, stagnation or end-of-content exit |
| Stages.PromptStep | tweety_replies.py:51-63 | the verification step never counts as a timeout; it fails only when waiting for the prompt raises something else, or when answering the prompt does |
| Stages.Login | tweety_replies.py:38-84 | login succeeds exactly when every mandatory step completes and the verification step raised nothing but timeouts; otherwise the first step that did not complete decides the report, a timeout there giving the timeout outcome and any other exception the error outcome (`FirstUnfinished`); a timeout outcome comes only from a mandatory step; a failed page load escapes the stage |
| Stages.VerificationPromptIsSoft | tweety_replies.py:61-63 | a missing prompt, or a timeout on its "Next" button, gives the same login outcome as an answered prompt |
| Stages.LandmarkTimeoutFailsLogin | tweety_replies.py:72-80 | when the home landmark never appears, login reports a timeout failure |
| Stages.StripLeadingAt | tweety_replies.py:90 | the cleaned name is a suffix of the profile name, does not start with '@', and only '@' characters were removed |
| Stages.RepliesUrl | tweety_replies.py:90-91 | the URL is the site prefix, then the profile name with its leading '@'s dropped, then the "with_replies" suffix |
| Stages.LeadingAtIsIgnored | tweety_replies.py:90-91 | "@name" and "name" give the same URL |
| Stages.Navigate | tweety_replies.py:86-112 | an unset or empty profile name gives false without loading anything; otherwise the replies URL is loaded; the stage reports true exactly when the load succeeds and the wait does not raise a non-timeout error (a wait timeout still gives true); a failed load escapes the stage |
| Script.RunScript | tweety_replies.py:274-285 | the deletion loop runs exactly when the configuration is complete, login succeeds and navigation succeeds; a failed login never reaches navigation; a failed navigation is reported as `Crashed` when its page load raised and as a navigation failure otherwise; the reported total is at most 15 and is 0 whenever the loop did not run (`ConfigComplete` and `Truthy` state the `all([...])` check at line 275) |

## Left out

- Browser mechanics are not modelled: driver set-up, waits and their durations, element
  lookup, clicks, script execution, the ESC key, screenshots and `driver.quit`. They
  appear only as the outcomes listed above. The XPath strings appear only as the labels
  of `Selector`.
- `time.sleep` and `random.uniform` delays are left out: they do not affect control flow.
- Console output and the final `input()` acknowledgement are left out.
- Environment loading is left out. The verification answer text defaults to the
  username; it is only typed into the prompt and never affects control flow.
- The post-text snippet read (lines 141-147) is left out. Every exception it raises is
  swallowed, so it never changes an outcome.
- Diagnostic screenshots and `driver.current_url` reads are assumed to succeed. In the
  source, one that raises inside an `except` handler propagates past it:
  - The screenshots at lines 79, 83, 107, 111 and 270 and the URL reads at lines 78 and 82
    reach the top-level handler and end the run. The model reports the handler's own
    outcome instead (`LoginTimedOut`, `LoginError`, `LoadTimedOut`, `NavError`, or a pass
    that did not delete). For the screenshot at line 107 this reaches the loop: the source
    ends the run, while the model's navigation reports `LoadTimedOut`, which proceeds, and
    the deletion loop runs.
  - The screenshots at lines 240, 248 and 256 leave the per-article handler and the loop
    over the articles, and land in the pass's own handler at lines 268-271. That ends the
    pass with false. The model instead moves on to the next article, which can still end
    the pass with a deletion.
  - The screenshot at line 221 raises inside the article's `try`, so one of the handlers
    at lines 235-261 picks it up. The model moves on to the next article without that
    handler.
- Failures of the height and offset reads or of the scroll inside the loop are not
  modelled (lines 309-317). In the source these reach the top-level handler.
- The top-level handler and `KeyboardInterrupt` (lines 326-340) are process teardown and
  are left out. Only stage-level escapes are reported, as `Crashed`.
- Page heights are integers. The scroll offset is a real number, since browsers can report
  a fractional offset. The innerHeight read is taken from the same round.
- RunSession: it needs at least 70 rounds of answers. This is the oracle's shape, not a
  demand of the script. `LaterRoundsAreNeverRun` shows that the rounds after the last
  pass it runs are never consulted.
- AttemptPass: `confirmClicks` counts only "Delete" clicks that completed. A click that
  raised an intercepted, timeout or other error moves on to the next article. So more
  than one click can be attempted in one pass, and that count is not bounded by the model.
- The other files of the repository (a system-restore GUI, a sound recorder, PDF and EPUB
  converters, a speech demo and a message box) are not part of this model.

=== FILE: browser.dfy ===
/** Outcomes of the browser calls the reply-deletion driver makes. The browser itself is
    not modelled: every call it answers becomes one of these values, supplied as input. */
module Browser {

  datatype Option<T> = None | Some(value: T)

  /** A bounded wait or an action guarded by one, as seen from the login and navigation
      stages: it completed, it ran out of time, or it raised some other exception. */
  datatype Step = Ok | TimedOut | Failed

  /** The exception classes the per-article handler tells apart, in the order of its
      except clauses. */
  datatype Fault = Stale | Intercepted | Timeout | OtherError

  /** A yes/no query on a live element that may also raise. */
  datatype Check = Holds | DoesNotHold | CheckRaised(fault: Fault)

  /** An action on a live element (a script call or a click) that may raise. */
  datatype Act = Done | ActRaised(fault: Fault)
}

=== FILE: deletion_pass.dfy ===
/** One deletion pass: scan the visible articles and, article by article, try to open its
    "more options" menu and click "Delete"; the first confirmed click or the first stale
    element ends the pass. */
module DeletionPass {
  import opened Browser
  import opened Resolution

  /** What the browser answers while one scanned article is processed, step by step:
      the visibility check, centring it in the viewport, the probes of the trigger
      selectors (inside the article), the click on the trigger, the probes of the
      "Delete" selectors (on the whole page) and the click on "Delete". */
  datatype Article = Article(
    displayed: Check,
    centre: Act,
    trigger: Selector -> Probe,
    openMenu: Act,
    menu: Selector -> Probe,
    confirm: Act)

  /** The result of scanning the page for articles: the initial wait for an article timed
      out, the wait or the lookup raised something else, or the list of articles found
      (possibly empty). */
  datatype Scan = NoArticles | ScanFailed | Scanned(articles: seq<Article>)

  /** How processing one article ends. */
  datatype ArticleOutcome =
    | NotDisplayed | TriggerNotFound | DeleteNotFound | ConfirmClicked
    | WentStale | ClickIntercepted | WaitTimedOut | UnexpectedError

  /** The handler an exception raised while processing an article lands in. */
  function FaultOutcome(f: Fault): (o: ArticleOutcome)
    ensures EndsPass(o) <==> f == Stale
    ensures o != NotDisplayed && o != TriggerNotFound && o != DeleteNotFound && o != ConfirmClicked
  {
    match f
    case Stale => WentStale
    case Intercepted => ClickIntercepted
    case Timeout => WaitTimedOut
    case OtherError => UnexpectedError
  }

  /** True of the outcomes that end the pass with "deleted": a completed click on
      "Delete", and a stale element raised by the visibility check, the scroll into view or
      either click, taken optimistically as success. A stale element met by a selector probe
      only moves that search on (its `Probe` is `Raises`). */
  predicate EndsPass(o: ArticleOutcome) {
    o == ConfirmClicked || o == WentStale
  }

  /** Does every step of processing `a` complete, up to and including the click on "Delete"? */
  predicate AllStepsComplete(a: Article) {
    a.displayed == Holds && a.centre == Done && a.openMenu == Done && a.confirm == Done
    && FirstUsable(MoreOptionsSelectors, a.trigger).Some?
    && FirstUsable(DeleteSelectors, a.menu).Some?
  }

  /** The first exception, in processing order, that the steps of `a` raise. */
  function FirstFault(a: Article): Option<Fault> {
    if a.displayed.CheckRaised? then Some(a.displayed.fault)
    else if a.displayed == DoesNotHold then None
    else if a.centre.ActRaised? then Some(a.centre.fault)
    else if FirstUsable(MoreOptionsSelectors, a.trigger).None? then None
    else if a.openMenu.ActRaised? then Some(a.openMenu.fault)
    else if FirstUsable(DeleteSelectors, a.menu).None? then None
    else if a.confirm.ActRaised? then Some(a.confirm.fault)
    else None
  }

  /** How processing `a` ends, step by step in the order the driver performs them. */
  function Classify(a: Article): (o: ArticleOutcome)
    ensures o == ConfirmClicked <==> AllStepsComplete(a)
    ensures o == NotDisplayed <==> a.displayed == DoesNotHold
    ensures FirstFault(a).Some? ==> o == FaultOutcome(FirstFault(a).value)
    ensures EndsPass(o) <==> AllStepsComplete(a) || FirstFault(a) == Some(Stale)
    ensures o == TriggerNotFound <==>
      a.displayed == Holds && a.centre == Done && FirstUsable(MoreOptionsSelectors, a.trigger).None?
    ensures o == DeleteNotFound <==>
      a.displayed == Holds && a.centre == Done && FirstUsable(MoreOptionsSelectors, a.trigger).Some?
      && a.openMenu == Done && FirstUsable(DeleteSelectors, a.menu).None?
    ensures o == TriggerNotFound ==>
      forall j :: 0 <= j < |MoreOptionsSelectors| ==> a.trigger(MoreOptionsSelectors[j]) != Usable
    ensures o == DeleteNotFound ==>
      FirstUsable(MoreOptionsSelectors, a.trigger).Some? && a.openMenu == Done &&
      forall j :: 0 <= j < |DeleteSelectors| ==> a.menu(DeleteSelectors[j]) != Usable
  {
    match a.displayed
    case CheckRaised(f) => FaultOutcome(f)
    case DoesNotHold => NotDisplayed
    case Holds =>
      if a.centre.ActRaised? then FaultOutcome(a.centre.fault)
      else if FirstUsable(MoreOptionsSelectors, a.trigger).None? then TriggerNotFound
      else if a.openMenu.ActRaised? then FaultOutcome(a.openMenu.fault)
      else if FirstUsable(DeleteSelectors, a.menu).None? then DeleteNotFound
      else if a.confirm.ActRaised? then FaultOutcome(a.confirm.fault)
      else ConfirmClicked
  }

  /** The outcomes of processing `articles`, one per article, in scan order. */
  function Outcomes(articles: seq<Article>): (os: seq<ArticleOutcome>)
    ensures |os| == |articles|
    ensures forall k :: 0 <= k < |articles| ==> os[k] == Classify(articles[k])
  {
    seq(|articles|, k requires 0 <= k < |articles| => Classify(articles[k]))
  }

  /** The position of the first outcome, from position `from` on, that ends the pass,
      if any. */
  function FirstEnding(outcomes: seq<ArticleOutcome>, from: nat): (r: Option<nat>)
    requires from <= |outcomes|
    ensures r.Some? ==> from <= r.value < |outcomes| && EndsPass(outcomes[r.value])
    ensures r.Some? ==> forall j :: from <= j < r.value ==> !EndsPass(outcomes[j])
    ensures r.None? <==> forall j :: from <= j < |outcomes| ==> !EndsPass(outcomes[j])
    decreases |outcomes| - from
  {
    if from == |outcomes| then None
    else if EndsPass(outcomes[from]) then Some(from)
    else FirstEnding(outcomes, from + 1)
  }

  /** The article that ends a pass over `scan`, if one does. */
  function PassWinner(scan: Scan): Option<nat> {
    if scan.Scanned? then FirstEnding(Outcomes(scan.articles), 0) else None
  }

  /** Does a pass over `scan` report a deletion? */
  predicate PassDeletes(scan: Scan) {
    PassWinner(scan).Some?
  }

  /** Processing one article: each step runs only if the previous one completed, and
      the first exception raised decides which handler the article lands in. */
  method ProcessArticle(a: Article) returns (outcome: ArticleOutcome)
    ensures outcome == Classify(a)
  {
    if a.displayed.CheckRaised? {
      return FaultOutcome(a.displayed.fault);
    }
    if a.displayed == DoesNotHold {
      return NotDisplayed;
    }
    if a.centre.ActRaised? {
      return FaultOutcome(a.centre.fault);
    }
    var trigger := Resolve(MoreOptionsSelectors, a.trigger);
    if trigger.None? {
      return TriggerNotFound;
    }
    if a.openMenu.ActRaised? {
      return FaultOutcome(a.openMenu.fault);
    }
    var entry := Resolve(DeleteSelectors, a.menu);
    if entry.None? {
      return DeleteNotFound;
    }
    if a.confirm.ActRaised? {
      return FaultOutcome(a.confirm.fault);
    }
    return ConfirmClicked;
  }

  /** The deletion pass. It reports `deleted` exactly when some article ends the pass and
      every earlier one was skipped, and `confirmClicks` counts the clicks on "Delete"
      that completed: at most one, and one only when the pass ends on such a click. */
  method AttemptPass(scan: Scan) returns (deleted: bool, confirmClicks: nat)
    ensures deleted == PassDeletes(scan)
    ensures deleted <==>
      (scan.Scanned? && exists k :: 0 <= k < |scan.articles| && EndsPass(Classify(scan.articles[k])))
    ensures confirmClicks <= 1
    ensures confirmClicks == 1 <==>
      deleted && Classify(scan.articles[PassWinner(scan).value]) == ConfirmClicked
  {
    if !scan.Scanned? {
      return false, 0;
    }
    var articles := scan.articles;
    if |articles| == 0 {
      return false, 0;
    }
    ghost var outcomes := Outcomes(articles);
    for i := 0 to |articles|
      invariant FirstEnding(outcomes, i) == FirstEnding(outcomes, 0)
    {
      var outcome := ProcessArticle(articles[i]);
      assert outcome == outcomes[i];
      if outcome == ConfirmClicked {
        return true, 1;
      }
      if outcome == WentStale {
        return true, 0;
      }
      // every other outcome dismisses any open menu and moves on to the next article
    }
    return false, 0;
  }

  /** A stale article counts as deleted even when no click was made on it: staleness on
      the first visibility check already ends the pass with success. */
  lemma {:induction false} StaleCountsBeforeAnyClick(a: Article, rest: seq<Article>)
    requires a.displayed == CheckRaised(Stale)
    ensures Classify(a) == WentStale
    ensures PassWinner(Scanned([a] + rest)) == Some(0)
  {
  }

  /** Articles skipped before the one that ends the pass do not change whether the pass
      deletes: a pass deletes over `skipped + rest` exactly when it deletes over `rest`. */
  lemma {:induction false} SkippedArticlesAreTransparent(skipped: seq<Article>, rest: seq<Article>)
    requires forall j :: 0 <= j < |skipped| ==> !EndsPass(Classify(skipped[j]))
    ensures PassDeletes(Scanned(skipped + rest)) == PassDeletes(Scanned(rest))
  {
    var all := skipped + rest;
    if PassDeletes(Scanned(rest)) {
      var k := FirstEnding(Outcomes(rest), 0).value;
      assert all[|skipped| + k] == rest[k];
    } else {
      forall j | 0 <= j < |all|
        ensures !EndsPass(Classify(all[j]))
      {
        if j >= |skipped| {
          assert all[j] == rest[j - |skipped|];
        }
      }
    }
  }
}

=== FILE: resolution.dfy ===
/** The ordered fallback search for a UI affordance: try each selector in priority order
    and take the first one that yields a usable element. */
module Resolution {
  import opened Browser

  /** Labels for the XPath queries of the two fallback lists; the query text itself is
      irrelevant to the control flow. */
  datatype Selector =
    | Caret | MoreLabelDiv | MoreLabelButton | MoreTweetActionsDiv | MoreOptionsDiv
    | DotsIconDiv | DotsIconRoleButton | MoreIconDiv | DotsIconButton
    | DeleteSpanExact | DeleteSpanContains | DeleteDivContains | DeleteAriaLabel
    | DeleteChildSpanExact | DeleteChildSpanContains

  /** The "more options" trigger queries, searched inside one article. */
  const MoreOptionsSelectors: seq<Selector> :=
    [Caret, MoreLabelDiv, MoreLabelButton, MoreTweetActionsDiv, MoreOptionsDiv,
     DotsIconDiv, DotsIconRoleButton, MoreIconDiv, DotsIconButton]

  /** The "Delete" menu-entry queries, searched over the whole page. */
  const DeleteSelectors: seq<Selector> :=
    [DeleteSpanExact, DeleteSpanContains, DeleteDivContains, DeleteAriaLabel,
     DeleteChildSpanExact, DeleteChildSpanContains]

  /** What probing one selector yields: the presence wait timed out; an element was found
      but is not displayed (or not enabled); it passed every check and the clickability
      wait; or some wait or check raised. */
  datatype Probe = Missing | Unusable | Usable | Raises

  /** The position of the first candidate whose probe is usable, if any. */
  function FirstUsable(candidates: seq<Selector>, probe: Selector -> Probe): (r: Option<nat>)
    ensures r.Some? ==> r.value < |candidates| && probe(candidates[r.value]) == Usable
    ensures r.Some? ==> forall j :: 0 <= j < r.value ==> probe(candidates[j]) != Usable
    ensures r.None? <==> forall j :: 0 <= j < |candidates| ==> probe(candidates[j]) != Usable
    decreases |candidates|
  {
    if candidates == [] then None
    else if probe(candidates[0]) == Usable then Some(0)
    else
      match FirstUsable(candidates[1..], probe)
      case None => None
      case Some(k) =>
        assert forall j :: 1 <= j <= k ==> candidates[j] == candidates[1..][j - 1];
        Some(k + 1)
  }

  /** The search loop: every probe that is not usable, whatever its kind, only moves the
      search on to the next selector; "not found" means the list was exhausted. */
  method Resolve(candidates: seq<Selector>, probe: Selector -> Probe) returns (found: Option<nat>)
    ensures found == FirstUsable(candidates, probe)
    ensures found.Some? ==> found.value < |candidates| && probe(candidates[found.value]) == Usable
    ensures found.Some? ==> forall j :: 0 <= j < found.value ==> probe(candidates[j]) != Usable
    ensures found.None? ==> forall j :: 0 <= j < |candidates| ==> probe(candidates[j]) != Usable
  {
    for i := 0 to |candidates|
      invariant forall j :: 0 <= j < i ==> probe(candidates[j]) != Usable
    {
      if probe(candidates[i]) == Usable {
        return Some(i);
      }
    }
    return None;
  }
}

=== FILE: script.dfy ===
/** The top level: check the configuration, log in, open the replies stream, and only
    then run the session loop. */
module Script {
  import opened Browser
  import opened Stages
  import opened SessionLoop

  /** How the run ends, and what its summary reports. */
  datatype Report =
    | MissingConfig
    | LoginFailed(login: LoginOutcome)
    | NavigationFailed(nav: NavOutcome)
    | Crashed
    | Finished(summary: Summary)

  /** The number of deletions the closing summary reports. */
  function Deleted(r: Report): nat {
    if r.Finished? then r.summary.total else 0
  }

  /** The whole run. The loop runs only when the configuration is complete, login succeeds
      and the replies stream opens; a failed login never reaches navigation. */
  method RunScript(cfg: Config, login: LoginEnv, nav: NavEnv, rounds: seq<Round>) returns (r: Report)
    requires |rounds| >= MaxTotalIterations
    ensures r.Finished? <==>
      ConfigComplete(cfg) && Login(login) == LoggedIn && Proceeds(Navigate(cfg.profile, nav))
    ensures r.Finished? ==> r.summary == Session(Observe(rounds))
    ensures !ConfigComplete(cfg) ==> r == MissingConfig
    ensures ConfigComplete(cfg) && Login(login) != LoggedIn ==>
      r == (if Login(login) == LoginCrashed then Crashed else LoginFailed(Login(login)))
    ensures ConfigComplete(cfg) && Login(login) == LoggedIn && !Proceeds(Navigate(cfg.profile, nav)) ==>
      r == (if Navigate(cfg.profile, nav).NavCrashed? then Crashed else NavigationFailed(Navigate(cfg.profile, nav)))
    ensures Deleted(r) <= MaxDeletesPerSession
  {
    if !ConfigComplete(cfg) {
      return MissingConfig;
    }
    var signedIn := Login(login);
    if signedIn == LoginCrashed {
      return Crashed;
    }
    if signedIn != LoggedIn {
      return LoginFailed(signedIn);
    }
    var stream := Navigate(cfg.profile, nav);
    if stream.NavCrashed? {
      return Crashed;
    }
    if !Proceeds(stream) {
      return NavigationFailed(stream);
    }
    var summary := RunSession(rounds);
    return Finished(summary);
  }
}

=== FILE: session_loop.dfy ===
/** The session loop: run deletion passes until the quota is met, the passes stagnate,
    the page stops growing at its bottom, or the iteration ceiling is reached. */
module SessionLoop {
  import opened Browser
  import opened DeletionPass

  const MaxDeletesPerSession: nat := 15
  const MaxScrollAttemptsWithoutDelete: nat := 7
  const MaxTotalIterations: nat := 70
  /** End of content needs more failed passes in a row than this. */
  const EndCheckMinStreak: nat := 2
  /** How close to the largest scroll offset counts as the bottom of the page. */
  const BottomTolerance: real := 15.0

  /** The page measurements read after a failed pass: the body height before and after
      scrolling, the vertical scroll offset (possibly fractional), and the body height and
      viewport height from which the largest scroll offset is computed. */
  datatype PageView = PageView(
    heightBefore: int, heightAfter: int, offset: real, scrollHeight: int, innerHeight: int)

  /** What the browser answers during one iteration: the pass's scan, and the
      measurements taken if the pass fails. */
  datatype Round = Round(scan: Scan, view: PageView)

  /** What the loop sees of one iteration: whether the pass deleted, and the measurements. */
  datatype Observed = Observed(deleted: bool, view: PageView)

  datatype StopReason = QuotaReached | Stagnation | EndOfContent | IterationCeiling

  /** The counters when the loop stops, the number of passes run and of scrolls made. */
  datatype Summary = Summary(total: nat, streak: nat, passes: nat, scrolls: nat, reason: StopReason)

  function Abs(x: real): real { if x < 0.0 then -x else x }

  predicate NearBottom(v: PageView) {
    Abs(v.offset - (v.scrollHeight - v.innerHeight) as real) < BottomTolerance
  }

  /** The end-of-content test, evaluated after a failed pass with `streak` failures in a row. */
  predicate AtEndOfContent(v: PageView, streak: nat) {
    v.heightAfter == v.heightBefore && streak > EndCheckMinStreak && NearBottom(v)
  }

  /** The iterations as the loop sees them. */
  function Observe(rounds: seq<Round>): seq<Observed> {
    seq(|rounds|, j requires 0 <= j < |rounds| => Observed(PassDeletes(rounds[j].scan), rounds[j].view))
  }

  /** The loop from iteration `i` on, with the counters it has at that point. */
  function Loop(obs: seq<Observed>, i: nat, total: nat, streak: nat, scrolls: nat): (s: Summary)
    requires i <= MaxTotalIterations <= |obs|
    ensures i <= s.passes <= MaxTotalIterations
    ensures i < MaxTotalIterations ==> i < s.passes
    decreases MaxTotalIterations - i
  {
    if i == MaxTotalIterations then Summary(total, streak, i, scrolls, IterationCeiling)
    else if obs[i].deleted then
      if total + 1 >= MaxDeletesPerSession then Summary(total + 1, 0, i + 1, scrolls, QuotaReached)
      else Loop(obs, i + 1, total + 1, 0, scrolls)
    else if streak + 1 >= MaxScrollAttemptsWithoutDelete then
      Summary(total, streak + 1, i + 1, scrolls, Stagnation)
    else if AtEndOfContent(obs[i].view, streak + 1) then
      Summary(total, streak + 1, i + 1, scrolls + 1, EndOfContent)
    else Loop(obs, i + 1, total, streak + 1, scrolls + 1)
  }

  /** The whole session, from zeroed counters. */
  function Session(obs: seq<Observed>): Summary
    requires |obs| >= MaxTotalIterations
  {
    Loop(obs, 0, 0, 0, 0)
  }

  /** Reference count: how many of the first `n` passes deleted something. */
  function Successes(obs: seq<Observed>, n: nat): nat
    requires n <= |obs|
  {
    if n == 0 then 0 else Successes(obs, n - 1) + (if obs[n - 1].deleted then 1 else 0)
  }

  /** Reference count: how many of the first `n` passes, counted back from the last one,
      failed in a row. */
  function FailureRun(obs: seq<Observed>, n: nat): nat
    requires n <= |obs|
  {
    if n == 0 || obs[n - 1].deleted then 0 else FailureRun(obs, n - 1) + 1
  }

  /** The session loop: counters are local variables updated pass by pass. */
  method RunSession(rounds: seq<Round>) returns (s: Summary)
    requires |rounds| >= MaxTotalIterations
    ensures s == Session(Observe(rounds))
    ensures s.passes <= MaxTotalIterations && s.total <= MaxDeletesPerSession
  {
    ghost var obs := Observe(rounds);
    SessionIsBounded(obs);
    var total, streak, scrolls := 0, 0, 0;
    for iteration := 0 to MaxTotalIterations
      invariant Loop(obs, iteration, total, streak, scrolls) == Session(obs)
    {
      var deleted, _ := AttemptPass(rounds[iteration].scan);
      assert obs[iteration] == Observed(deleted, rounds[iteration].view);
      if deleted {
        total := total + 1;
        streak := 0;
        if total >= MaxDeletesPerSession {
          return Summary(total, streak, iteration + 1, scrolls, QuotaReached);
        }
      } else {
        streak := streak + 1;
        if streak >= MaxScrollAttemptsWithoutDelete {
          return Summary(total, streak, iteration + 1, scrolls, Stagnation);
        }
        scrolls := scrolls + 1;
        if AtEndOfContent(rounds[iteration].view, streak) {
          return Summary(total, streak, iteration + 1, scrolls, EndOfContent);
        }
      }
    }
    return Summary(total, streak, MaxTotalIterations, scrolls, IterationCeiling);
  }

  /** One iteration of the loop: the summary from iteration `i` is either the one the
      iteration stops with or the summary from iteration `i + 1` with updated counters. */
  lemma LoopStep(obs: seq<Observed>, i: nat, total: nat, streak: nat, scrolls: nat)
    requires i < MaxTotalIterations <= |obs|
    ensures obs[i].deleted && total + 1 >= MaxDeletesPerSession ==>
      Loop(obs, i, total, streak, scrolls) == Summary(total + 1, 0, i + 1, scrolls, QuotaReached)
    ensures obs[i].deleted && total + 1 < MaxDeletesPerSession ==>
      Loop(obs, i, total, streak, scrolls) == Loop(obs, i + 1, total + 1, 0, scrolls)
    ensures !obs[i].deleted && streak + 1 >= MaxScrollAttemptsWithoutDelete ==>
      Loop(obs, i, total, streak, scrolls) == Summary(total, streak + 1, i + 1, scrolls, Stagnation)
    ensures (!obs[i].deleted && streak + 1 < MaxScrollAttemptsWithoutDelete
             && AtEndOfContent(obs[i].view, streak + 1)) ==>
      Loop(obs, i, total, streak, scrolls) == Summary(total, streak + 1, i + 1, scrolls + 1, EndOfContent)
    ensures (!obs[i].deleted && streak + 1 < MaxScrollAttemptsWithoutDelete
             && !AtEndOfContent(obs[i].view, streak + 1)) ==>
      Loop(obs, i, total, streak, scrolls) == Loop(obs, i + 1, total, streak + 1, scrolls + 1)
  {
  }

  /** The facts that hold at the head of every iteration the loop reaches. */
  ghost predicate Reached(obs: seq<Observed>, i: nat, total: nat, streak: nat, scrolls: nat) {
    i <= MaxTotalIterations <= |obs|
    && total < MaxDeletesPerSession && streak < MaxScrollAttemptsWithoutDelete
    && total == Successes(obs, i) && streak == FailureRun(obs, i)
    && scrolls + total == i
    && forall n :: 1 <= n <= i ==> FailureRun(obs, n) < MaxScrollAttemptsWithoutDelete
  }

  /** Where the loop stops, from any reached iteration: within the ceiling, with counters
      that agree with the reference counts, and for a reason that matches them. */
  lemma {:induction false} LoopInvariants(obs: seq<Observed>, i: nat, total: nat, streak: nat, scrolls: nat)
    requires Reached(obs, i, total, streak, scrolls)
    ensures Concluded(obs, Loop(obs, i, total, streak, scrolls))
    decreases MaxTotalIterations - i
  {
    if i < MaxTotalIterations {
      LoopStep(obs, i, total, streak, scrolls);
      ReachedNext(obs, i, total, streak, scrolls);
      if obs[i].deleted {
        if total + 1 < MaxDeletesPerSession {
          LoopInvariants(obs, i + 1, total + 1, 0, scrolls);
        }
      } else if streak + 1 < MaxScrollAttemptsWithoutDelete && !AtEndOfContent(obs[i].view, streak + 1) {
        LoopInvariants(obs, i + 1, total, streak + 1, scrolls + 1);
      }
    }
  }

  /** What holds of the summary the loop stops with: the counters agree with the reference
      counts, each stop reason matches its condition, and no earlier prefix of the run had
      the stagnation ceiling's number of failures in a row. */
  ghost predicate Concluded(obs: seq<Observed>, s: Summary) {
    s.passes <= MaxTotalIterations <= |obs|
      && s.total == Successes(obs, s.passes) && s.streak == FailureRun(obs, s.passes)
      && s.total <= MaxDeletesPerSession && s.streak <= MaxScrollAttemptsWithoutDelete
      && (s.reason == QuotaReached <==> s.total == MaxDeletesPerSession)
      && (s.reason == Stagnation <==> s.streak == MaxScrollAttemptsWithoutDelete)
      && (s.reason == IterationCeiling ==> s.passes == MaxTotalIterations)
      && (s.reason == QuotaReached ==> obs[s.passes - 1].deleted)
      && (s.reason == EndOfContent ==>
            s.passes >= 1 && !obs[s.passes - 1].deleted
            && AtEndOfContent(obs[s.passes - 1].view, s.streak)
            && s.streak < MaxScrollAttemptsWithoutDelete)
      && s.scrolls + s.total + (if s.reason == Stagnation then 1 else 0) == s.passes
      && (forall n :: 1 <= n < s.passes ==> FailureRun(obs, n) < MaxScrollAttemptsWithoutDelete)
  }

  /** One iteration from a reached one: the counters it continues with are reached too. */
  lemma ReachedNext(obs: seq<Observed>, i: nat, total: nat, streak: nat, scrolls: nat)
    requires Reached(obs, i, total, streak, scrolls) && i < MaxTotalIterations
    ensures Successes(obs, i + 1) == total + (if obs[i].deleted then 1 else 0)
    ensures FailureRun(obs, i + 1) == (if obs[i].deleted then 0 else streak + 1)
    ensures obs[i].deleted && total + 1 < MaxDeletesPerSession ==>
      Reached(obs, i + 1, total + 1, 0, scrolls)
    ensures !obs[i].deleted && streak + 1 < MaxScrollAttemptsWithoutDelete ==>
      Reached(obs, i + 1, total, streak + 1, scrolls + 1)
  {
    assert Successes(obs, i + 1) == total + (if obs[i].deleted then 1 else 0);
    assert FailureRun(obs, i + 1) == (if obs[i].deleted then 0 else streak + 1);
  }

  /** From any reached iteration, the first failed pass short of the stagnation ceiling that
      meets the end-of-content test is the last pass the loop runs, and the loop stops there
      for end of content. */
  lemma {:induction false} EndOfContentIsTaken(obs: seq<Observed>, i: nat, total: nat, streak: nat, scrolls: nat)
    requires Reached(obs, i, total, streak, scrolls)
    ensures var s := Loop(obs, i, total, streak, scrolls);
      forall n :: i < n <= s.passes && !obs[n - 1].deleted
        && FailureRun(obs, n) < MaxScrollAttemptsWithoutDelete
        && AtEndOfContent(obs[n - 1].view, FailureRun(obs, n))
        ==> n == s.passes && s.reason == EndOfContent
    decreases MaxTotalIterations - i
  {
    if i < MaxTotalIterations {
      LoopStep(obs, i, total, streak, scrolls);
      ReachedNext(obs, i, total, streak, scrolls);
      if obs[i].deleted {
        if total + 1 < MaxDeletesPerSession {
          EndOfContentIsTaken(obs, i + 1, total + 1, 0, scrolls);
        }
      } else if streak + 1 < MaxScrollAttemptsWithoutDelete && !AtEndOfContent(obs[i].view, streak + 1) {
        EndOfContentIsTaken(obs, i + 1, total, streak + 1, scrolls + 1);
      }
    }
  }

  /** The loop makes at most the ceiling's number of passes, whatever the browser answers,
      and never deletes more than the quota. */
  lemma SessionIsBounded(obs: seq<Observed>)
    requires |obs| >= MaxTotalIterations
    ensures Session(obs).passes <= MaxTotalIterations
    ensures Session(obs).total <= MaxDeletesPerSession
    ensures Session(obs).reason == IterationCeiling ==> Session(obs).passes == MaxTotalIterations
  {
    LoopInvariants(obs, 0, 0, 0, 0);
  }

  /** The deletion counter equals the number of passes that deleted, and the failure
      counter the number of failed passes since the last one that deleted: a deleting pass
      adds one to the first and resets the second, a failed pass adds one to the second. */
  lemma SessionTally(obs: seq<Observed>)
    requires |obs| >= MaxTotalIterations
    ensures Session(obs).total == Successes(obs, Session(obs).passes)
    ensures Session(obs).streak == FailureRun(obs, Session(obs).passes)
  {
    LoopInvariants(obs, 0, 0, 0, 0);
  }

  /** The session stops for the quota exactly when the deletion counter reaches it, and it
      stops in the iteration whose pass reached it. */
  lemma QuotaEndsSession(obs: seq<Observed>)
    requires |obs| >= MaxTotalIterations
    ensures Session(obs).reason == QuotaReached <==> Session(obs).total == MaxDeletesPerSession
    ensures Session(obs).reason == QuotaReached ==>
      Session(obs).passes >= 1 && obs[Session(obs).passes - 1].deleted
  {
    LoopInvariants(obs, 0, 0, 0, 0);
  }

  /** A failed pass that ends the session for stagnation does not scroll: every other
      failed pass scrolls exactly once. */
  lemma ScrollsFollowFailedPasses(obs: seq<Observed>)
    requires |obs| >= MaxTotalIterations
    ensures var s := Session(obs);
      s.scrolls + s.total + (if s.reason == Stagnation then 1 else 0) == s.passes
  {
    LoopInvariants(obs, 0, 0, 0, 0);
  }

  /** The end-of-content exit happens only after a failed pass with more than two failures
      in a row (and fewer than the stagnation ceiling), whose height did not change across
      the scroll and whose offset is within the tolerance of the bottom. */
  lemma EndOfContentNeedsBottom(obs: seq<Observed>)
    requires |obs| >= MaxTotalIterations
    ensures var s := Session(obs);
      s.reason == EndOfContent ==>
        && s.passes >= 1 && !obs[s.passes - 1].deleted
        && EndCheckMinStreak < s.streak < MaxScrollAttemptsWithoutDelete
        && obs[s.passes - 1].view.heightAfter == obs[s.passes - 1].view.heightBefore
        && NearBottom(obs[s.passes - 1].view)
  {
    LoopInvariants(obs, 0, 0, 0, 0);
  }

  /** Conversely, the first failed pass, short of the stagnation ceiling, whose height did
      not change and whose offset is near the bottom ends the session for end of content:
      the loop runs no pass after it. */
  lemma EndOfContentEndsSession(obs: seq<Observed>, n: nat)
    requires |obs| >= MaxTotalIterations
    requires 1 <= n <= Session(obs).passes && !obs[n - 1].deleted
    requires FailureRun(obs, n) < MaxScrollAttemptsWithoutDelete
    requires AtEndOfContent(obs[n - 1].view, FailureRun(obs, n))
    ensures Session(obs).passes == n && Session(obs).reason == EndOfContent
  {
    EndOfContentIsTaken(obs, 0, 0, 0, 0);
  }

  /** A run of failed passes counts at least its own length. */
  lemma {:induction false} FailureRunCoversRun(obs: seq<Observed>, k: nat, m: nat)
    requires k + m <= |obs|
    requires forall j :: k <= j < k + m ==> !obs[j].deleted
    ensures FailureRun(obs, k + m) >= m
    decreases m
  {
    if m > 0 {
      FailureRunCoversRun(obs, k, m - 1);
    }
  }

  /** Seven failed passes in a row end the session for stagnation right after the seventh,
      before it scrolls and before the iteration ceiling. */
  lemma SevenFailuresEndSession(obs: seq<Observed>, k: nat)
    requires |obs| >= MaxTotalIterations
    requires k + MaxScrollAttemptsWithoutDelete <= Session(obs).passes
    requires forall j :: k <= j < k + MaxScrollAttemptsWithoutDelete ==> !obs[j].deleted
    ensures Session(obs).passes == k + MaxScrollAttemptsWithoutDelete
    ensures Session(obs).reason == Stagnation
  {
    LoopInvariants(obs, 0, 0, 0, 0);
    FailureRunCoversRun(obs, k, MaxScrollAttemptsWithoutDelete);
  }

  /** The loop reads the iterations it runs and no others. */
  lemma {:induction false} LoopReadsOnlyItsRounds(
    obs: seq<Observed>, other: seq<Observed>, i: nat, total: nat, streak: nat, scrolls: nat)
    requires i <= MaxTotalIterations <= |obs| && MaxTotalIterations <= |other|
    requires forall j :: i <= j < Loop(obs, i, total, streak, scrolls).passes ==> other[j] == obs[j]
    ensures Loop(other, i, total, streak, scrolls) == Loop(obs, i, total, streak, scrolls)
    decreases MaxTotalIterations - i
  {
    if i < MaxTotalIterations {
      assert other[i] == obs[i];
      if obs[i].deleted {
        if total + 1 < MaxDeletesPerSession {
          LoopReadsOnlyItsRounds(obs, other, i + 1, total + 1, 0, scrolls);
        }
      } else if streak + 1 < MaxScrollAttemptsWithoutDelete && !AtEndOfContent(obs[i].view, streak + 1) {
        LoopReadsOnlyItsRounds(obs, other, i + 1, total, streak + 1, scrolls + 1);
      }
    }
  }

  /** Nothing the browser would answer after the last pass the session runs (after the
      quota, stagnation or end-of-content exit) affects the session: no later pass is run. */
  lemma LaterRoundsAreNeverRun(obs: seq<Observed>, other: seq<Observed>)
    requires |obs| >= MaxTotalIterations && |other| >= MaxTotalIterations
    requires obs[..Session(obs).passes] == other[..Session(obs).passes]
    ensures Session(other) == Session(obs)
  {
    SessionIsBounded(obs);
    var p := Session(obs).passes;
    assert forall j :: 0 <= j < p ==> obs[j] == obs[..p][j] && other[j] == other[..p][j];
    LoopReadsOnlyItsRounds(obs, other, 0, 0, 0, 0);
  }
}

=== FILE: stages.dfy ===
/** The stages that gate the deletion loop: the configuration check, logging in, and
    opening the profile's replies stream. */
module Stages {
  import opened Browser

  /** The configuration values read from the environment (absent or present). */
  datatype Config = Config(username: Option<string>, password: Option<string>, profile: Option<string>)

  /** Present and non-empty: how the driver judges a configuration value. */
  predicate Truthy(v: Option<string>) {
    v.Some? && v.value != ""
  }

  /** The start-up check: username, password and profile name must all be set. */
  predicate ConfigComplete(c: Config) {
    Truthy(c.username) && Truthy(c.password) && Truthy(c.profile)
  }

  // ---------------------------------------------------------------- login

  /** What the browser answers at each step of logging in: loading the login page, the
      username field, the "Next" button, the optional verification prompt and the answer
      to it, the password field, the "Log in" button and the home-tab landmark. */
  datatype LoginEnv = LoginEnv(
    openPage: Step, enterUsername: Step, clickNext: Step,
    promptProbe: Step, answerPrompt: Step,
    enterPassword: Step, clickLogin: Step, homeLandmark: Step)

  /** Logged in; a wait timed out (reported false); some other exception (reported false);
      loading the login page raised, which no handler of the login stage catches. */
  datatype LoginOutcome = LoggedIn | LoginTimedOut | LoginError | LoginCrashed

  /** The verification prompt as the outer handler sees it: a timeout waiting for the
      prompt, or for its "Next" button, is swallowed; any other exception is not. */
  function PromptStep(probe: Step, answer: Step): (r: Step)
    ensures r != TimedOut
    ensures r == Failed <==> probe == Failed || (probe == Ok && answer == Failed)
  {
    match probe
    case Failed => Failed
    case TimedOut => Ok
    case Ok => if answer == Failed then Failed else Ok
  }

  /** How a login step that did not complete is reported. */
  function Unfinished(s: Step): LoginOutcome {
    if s == TimedOut then LoginTimedOut else LoginError
  }

  /** The first login step after the page load that did not complete, in the order the
      driver performs them (the verification step as `PromptStep` sees it), or `Ok` when
      every one of them completed. */
  function FirstUnfinished(e: LoginEnv): Step {
    if e.enterUsername != Ok then e.enterUsername
    else if e.clickNext != Ok then e.clickNext
    else if PromptStep(e.promptProbe, e.answerPrompt) != Ok then PromptStep(e.promptProbe, e.answerPrompt)
    else if e.enterPassword != Ok then e.enterPassword
    else if e.clickLogin != Ok then e.clickLogin
    else e.homeLandmark
  }

  /** Logging in succeeds exactly when every mandatory step completes and the optional
      verification step raised nothing but timeouts; otherwise the first step that did
      not complete decides how the failure is reported. */
  function Login(e: LoginEnv): (r: LoginOutcome)
    ensures r == LoginCrashed <==> e.openPage != Ok
    ensures r == LoggedIn <==>
      && e.openPage == Ok && e.enterUsername == Ok && e.clickNext == Ok
      && e.enterPassword == Ok && e.clickLogin == Ok && e.homeLandmark == Ok
      && e.promptProbe != Failed && !(e.promptProbe == Ok && e.answerPrompt == Failed)
    ensures r == LoginTimedOut ==>
      e.enterUsername == TimedOut || e.clickNext == TimedOut || e.enterPassword == TimedOut
      || e.clickLogin == TimedOut || e.homeLandmark == TimedOut
    ensures r == LoginTimedOut <==> e.openPage == Ok && FirstUnfinished(e) == TimedOut
    ensures r == LoginError <==> e.openPage == Ok && FirstUnfinished(e) == Failed
  {
    if e.openPage != Ok then LoginCrashed
    else if e.enterUsername != Ok then Unfinished(e.enterUsername)
    else if e.clickNext != Ok then Unfinished(e.clickNext)
    else if PromptStep(e.promptProbe, e.answerPrompt) == Failed then LoginError
    else if e.enterPassword != Ok then Unfinished(e.enterPassword)
    else if e.clickLogin != Ok then Unfinished(e.clickLogin)
    else if e.homeLandmark != Ok then Unfinished(e.homeLandmark)
    else LoggedIn
  }

  /** The verification prompt is a soft probe: when it does not appear, or its "Next"
      button times out, logging in goes on exactly as if it had been answered. */
  lemma VerificationPromptIsSoft(e: LoginEnv)
    ensures e.promptProbe == TimedOut ==> Login(e) == Login(e.(promptProbe := Ok, answerPrompt := Ok))
    ensures e.answerPrompt == TimedOut ==> Login(e) == Login(e.(answerPrompt := Ok))
  {
  }

  /** A timeout on a mandatory step, after every earlier step completed, is a login failure
      reported as a timeout; the home landmark never appearing is one such case. */
  lemma LandmarkTimeoutFailsLogin(e: LoginEnv)
    requires e.openPage == Ok && e.enterUsername == Ok && e.clickNext == Ok
    requires PromptStep(e.promptProbe, e.answerPrompt) == Ok
    requires e.enterPassword == Ok && e.clickLogin == Ok && e.homeLandmark == TimedOut
    ensures Login(e) == LoginTimedOut
  {
  }

  // ----------------------------------------------------------- navigation

  /** What the browser answers while opening the replies stream: loading the URL, and the
      wait for an article or one of the empty-stream messages. */
  datatype NavEnv = NavEnv(openPage: Step, awaitContent: Step)

  /** No profile name set (reported false, nothing loaded); content or an empty-stream
      message appeared (true); the wait timed out (still true); the wait raised something
      else (false); loading the URL raised, which no handler of this stage catches. */
  datatype NavOutcome =
    | ProfileNotSet
    | ContentShown(url: string)
    | LoadTimedOut(url: string)
    | NavError(url: string)
    | NavCrashed(url: string)

  /** The outcomes the navigation stage reports as success. */
  predicate Proceeds(o: NavOutcome) {
    o.ContentShown? || o.LoadTimedOut?
  }

  /** The profile name with every leading '@' removed. */
  function StripLeadingAt(s: string): (r: string)
    ensures |r| <= |s| && r == s[|s| - |r|..]
    ensures r == [] || r[0] != '@'
    ensures forall j :: 0 <= j < |s| - |r| ==> s[j] == '@'
    decreases |s|
  {
    if s != [] && s[0] == '@' then
      var r := StripLeadingAt(s[1..]);
      assert forall j :: 1 <= j < |s| ==> s[j] == s[1..][j - 1];
      r
    else s
  }

  const UrlHead: string := "https://x.com/"
  const UrlTail: string := "/with_replies"

  /** The replies-stream URL: the profile name, with its leading '@'s dropped, between
      the site prefix and the "with_replies" suffix. */
  function RepliesUrl(profile: string): (u: string)
    ensures exists k ::
      && 0 <= k <= |profile| && u == UrlHead + profile[k..] + UrlTail
      && (forall j :: 0 <= j < k ==> profile[j] == '@')
      && (k == |profile| || profile[k] != '@')
  {
    var name := StripLeadingAt(profile);
    assert name == profile[|profile| - |name|..];
    UrlHead + name + UrlTail
  }

  /** A leading '@' does not change the URL: "@name" and "name" open the same stream. */
  lemma {:induction false} LeadingAtIsIgnored(profile: string)
    ensures RepliesUrl("@" + profile) == RepliesUrl(profile)
  {
    assert ("@" + profile)[1..] == profile;
  }

  /** Opening the replies stream: refused without a profile name; once the URL is loaded,
      only an exception other than a timeout makes the stage report failure. */
  function Navigate(profile: Option<string>, e: NavEnv): (r: NavOutcome)
    ensures r == ProfileNotSet <==> !Truthy(profile)
    ensures r != ProfileNotSet ==> r.url == RepliesUrl(profile.value)
    ensures Proceeds(r) <==> Truthy(profile) && e.openPage == Ok && e.awaitContent != Failed
    ensures r.NavCrashed? <==> Truthy(profile) && e.openPage != Ok
  {
    if !Truthy(profile) then ProfileNotSet
    else
      var url := RepliesUrl(profile.value);
      if e.openPage != Ok then NavCrashed(url)
      else
        match e.awaitContent
        case Ok => ContentShown(url)
        case TimedOut => LoadTimedOut(url)
        case Failed => NavError(url)
  }
}
